=== FILE: README.md ===
# Dingo event-data cache and inference configuration, in Dafny

This project models the discrete control logic around Dingo's inference
and importance-sampling stages for gravitational-wave events:

- the type-exact, recursive equality check on nested settings
  dictionaries;
- the dataset file that caches downloaded event data under the event time,
  guarded by that equality check;
- `load_raw_data`: serve from the cache, otherwise download once and
  optionally append;
- the raw-data settings a model's metadata implies, and which keys the
  frequency-domain conversion produces;
- `sample_posterior_of_event`: NPE or GNPE, and an optional initial model
  run one level deep;
- the importance-sampling settings setter. It applies presets and user
  settings in order of precedence, after the guard on the proposal
  columns. The model also covers how `run_sampler` turns those settings
  into the arguments of the synthetic-phase and importance-sampling calls;
- the removal of priority and accounting-group lines from scheduler jobs.

Python values are modelled by `Values.Value`. A value is either a dict from
string keys to values, or a leaf: the runtime type plus the cells that
numpy's elementwise `==` compares. NaN is a cell of its own and is never
equal to anything. Exceptions become `Wrappers.Error` values.

Downloads, file appends and sampler calls are recorded as an explicit trace
of `Effect`s. "At most once" and "before any download" are stated over
that trace.

Things outside the model are parameters: an `Env` record of functions and
a `Presets` record. They cover the string form of the GPS time, the data
download and the numeric signal processing. They also cover the NPE and
GNPE samplers, the named importance-sampling preset and the
settings-string parser.

One consequence shows up in `RepeatedLoadHits` and `NaNSettingsNeverHit`:
settings equal themselves only when they hold no NaN. So a cached event
whose settings contain NaN can never be served from the file again.

Another consequence concerns the initial model. The nested call for it
shares the cache file with the main call. It can therefore poison the file
for the main call. `InitSettingsMismatchFails` shows this for a run with a
file name, an initial run that succeeds and a main model whose training
settings can be read: if the two models derive different raw-data
settings, the main call raises ValueError. Without a file name there is
no cache and no such error. When the settings agree and hold no NaN, a
successful file-backed run downloads the event only once
(`InitAndMainShareOneDownload`).

## Model

| member | source | states |
|---|---|---|
| DatasetUtils.CheckDictsAreEqual | dingo/core/utils/dataset_utils.py:10-23 | the key-by-key check with early exits returns true exactly when the reference structural equality holds; different key sets, or one key whose values differ in runtime type, give false |
| DatasetUtils.ValuesEqualSymmetric | dingo/core/utils/dataset_utils.py:14-22 | equality of nested values does not depend on argument order |
| DatasetUtils.DictsEqualSymmetric | dingo/core/utils/dataset_utils.py:10-23 | the settings check is symmetric |
| DatasetUtils.ValuesEqualReflexive | dingo/core/utils/dataset_utils.py:18-22 | a value equals itself exactly when no NaN occurs anywhere inside it |
| DatasetUtils.DictsEqualReflexive | dingo/core/utils/dataset_utils.py:10-23 | settings equal themselves exactly when they hold no NaN |
| DatasetUtils.ValuesEqualIdentical | dingo/core/utils/dataset_utils.py:16-22 | the check is type-exact and elementwise, so values it accepts are indistinguishable by `==`: in this model, where a numeric cell is a real number, they are identical |
| DatasetUtils.DictsEqualIdentical | dingo/core/utils/dataset_utils.py:10-23 | settings the check accepts are indistinguishable by `==` (identical in this model) |
| DatasetUtils.LoadDataFromFile | dingo/core/utils/dataset_utils.py:26-59 | a missing file gives None; given settings that differ from the stored ones raise ValueError whether or not the key is present; stored settings of None raise AttributeError; otherwise the stored entry or None when the key is absent |
| EventData.AppendEvent | dingo/gw/inference/inference_pipeline.py:47-53 | appending adds the event under its key, records the settings, creates the file if needed, and leaves other entries and other files untouched |
| EventData.LoadRawData | dingo/gw/inference/inference_pipeline.py:13-55 | at most one download and one append; a hit returns the stored data with no effects; a mismatch fails with no effects and no write; a miss downloads exactly once with the given settings; an append happens exactly after a successful download with a file name |
| EventData.SuccessfulLoadIsStored | dingo/gw/inference/inference_pipeline.py:34-55 | after a successful file-backed load, the file holds the returned data under `str(time_event)` and records settings the check accepts as equal to the requested ones (identical in this model) |
| EventData.RepeatedLoadHits | dingo/gw/inference/inference_pipeline.py:34-55 | repeating a successful file-backed load with NaN-free settings returns the same data with no download and no write |
| EventData.LoadRawDataAppendOnly | dingo/gw/inference/inference_pipeline.py:47-53 | no stored entry and no recorded settings are ever overwritten |
| EventData.NaNSettingsNeverHit | dingo/gw/inference/inference_pipeline.py:37-41 | settings containing NaN that a file has recorded make every later load raise ValueError before any download |
| DomainTransform.ParseSettingsForRawData | dingo/gw/inference/inference_pipeline.py:58-74 | for a frequency-domain model whose metadata has the training window and detectors and the window's `T` and `f_s`, it succeeds, with exactly the six keys: window and detectors of the training data, `time_segment` = window `T`, `f_s` = window `f_s`, and `time_psd` and `time_buffer` unchanged; any other domain type raises NotImplementedError; past that, a missing key raises KeyError, a numpy array indexed by a key raises IndexError and any other non-dict raises TypeError |
| DomainTransform.SameWindowSameRawDataSettings | dingo/gw/inference/inference_pipeline.py:58-74 | the derived settings depend only on the domain type, the window and the detectors |
| DomainTransform.DataToDomain | dingo/gw/inference/inference_pipeline.py:93-116 | with the numeric calls total, success exactly for a frequency domain with a window argument and the keys it reads; "waveform" has exactly the strain detectors and "asds" exactly the PSD detectors, each built from that detector's series; another domain raises NotImplementedError |
| DomainTransform.ParsedSettingsFeedConversion | dingo/gw/inference/inference_pipeline.py:152-165 | derived raw-data settings always carry what the conversion reads, so only the domain and the window can make it fail |
| PosteriorSampling.UsesGnpe | dingo/gw/inference/inference_pipeline.py:148-149 | GNPE is chosen exactly when `gnpe_time_shifts` is a key of the training data settings; missing metadata keys raise |
| PosteriorSampling.SampleLoaded | dingo/gw/inference/inference_pipeline.py:159-176 | after the load, converting with the training window and sampling succeeds exactly for a frequency domain, makes the sampler call the GNPE flag selects and returns that sampler's output |
| PosteriorSampling.SampleWithModel | dingo/gw/inference/inference_pipeline.py:145-180 | a failed load reaches the caller unchanged, with its effects and files; succeeds exactly when the GNPE test, the settings derivation and the load succeed and the domain is a frequency domain, and then returns the chosen sampler's output on the converted data; at most one download and append; exactly one sampler call on success and none on failure; GNPE iff `gnpe_time_shifts` is a key; configuration errors are raised before any download |
| PosteriorSampling.SuccessfulRunLoaded | dingo/gw/inference/inference_pipeline.py:152-165 | a successful run loaded its raw data with the derived settings and did nothing else but sample once |
| PosteriorSampling.SamplePosteriorOfEvent | dingo/gw/inference/inference_pipeline.py:119-180 | at most two sampler calls, downloads and appends; without `model_init` the whole run (result, files and effects) is the single-model run's; with it, an exception of the nested call propagates unchanged with its files and effects, and otherwise the result and files are the main model's run on the nested samples, after the nested call's effects; the first call is for the initial model, with no initial samples and the default 30 iterations, and the second is for the main model and receives exactly the samples the nested call returned |
| PosteriorSampling.SuccessfulRunStoresEvent | dingo/gw/inference/inference_pipeline.py:152-157 | after a successful run with a file name and no `model_init`, the file holds the event under its key and records the derived raw-data settings |
| PosteriorSampling.InitAndMainShareOneDownload | dingo/gw/inference/inference_pipeline.py:133-157 | an initial and a main model that derive the same NaN-free settings download the event at most once in a successful file-backed run |
| PosteriorSampling.InitSettingsMismatchFails | dingo/gw/inference/inference_pipeline.py:133-157 | with a file name, a successful initial run and a main model whose GNPE test can be evaluated, an initial model whose derived settings differ from the main model's makes the main call raise ValueError after the initial sampling |
| ImportanceSampling.LoadProposal | dingo/gw/pipe/importance_sampling.py:90-96 | loading succeeds exactly when a `log_prob` column exists, and otherwise raises KeyError |
| ImportanceSampling.BaseSettings | dingo/gw/pipe/importance_sampling.py:105-111 | the starting settings are the phase-recovery preset when the proposal has no `phase` column, and are empty otherwise |
| ImportanceSampling.ImportanceSamplingSettings | dingo/gw/pipe/importance_sampling.py:102-125 | None gives empty settings whatever the columns; "phaserecoverydefault" in any case gives exactly the preset; another string gives the parsed entries over the preset when `phase` is missing, user keys winning; an unparsable string raises |
| ImportanceSampling.SettingsFollowPrecedence | dingo/gw/pipe/importance_sampling.py:105-125 | key by key, the setter agrees with the precedence chain: user entry, then the preset named, then the preset implied by a missing `phase` column |
| ImportanceSampling.DefaultStringIsParsed | dingo/gw/pipe/importance_sampling.py:113-123 | as written, "default" takes the parsing path instead of keeping the base settings |
| ImportanceSampling.IntendedImportanceSamplingSettings | dingo/gw/pipe/importance_sampling.py:113-119 | with the intended membership test, "default" keeps the base settings, and every other argument behaves as in the code |
| ImportanceSampling.Initialize | dingo/gw/pipe/importance_sampling.py:87-96 | the proposal guard runs before the setter: without a `log_prob` column it raises KeyError whatever the settings argument; with one, the result is the setter's |
| ImportanceSampling.GuardBeforeSettings | dingo/gw/pipe/importance_sampling.py:87-123 | an unparsable settings string raises its parse error only when the proposal has a `log_prob` column, and KeyError otherwise |
| ImportanceSampling.RunSampler | dingo/gw/pipe/importance_sampling.py:127-145 | the synthetic-phase step runs iff `synthetic_phase` is set, with its keywords and `num_processes` equal to the requested CPUs; the marginalization arguments are the settings entries or None; an entry that is not a mapping raises TypeError |
| ImportanceSampling.NoSettingsPlainImportanceSampling | dingo/gw/pipe/importance_sampling.py:124-145 | without a settings argument there is no synthetic-phase step and both marginalization arguments are None, even when the `phase` column is missing |
| ImportanceSampling.SettingsReachSampler | dingo/gw/pipe/importance_sampling.py:102-145 | the synthetic-phase step and the marginalization arguments follow the precedence chain of user entry, named preset and phase-recovery default |
| PipeUtils.StripUnwantedSubmissionKeys | dingo/gw/pipe/utils.py:1-10 | `getenv` and `universe` become None, other attributes stay, and the extra lines are exactly the reference filter's: none starting with "priority" or "accounting_group", never more than before |
| PipeUtils.WantedOnlyWanted | dingo/gw/pipe/utils.py:4-9 | a line is kept iff it was present and has neither prefix |
| PipeUtils.WantedKeepsMultiplicity | dingo/gw/pipe/utils.py:4-9 | every wanted line is kept as many times as it occurs, and no unwanted line is kept |
| PipeUtils.WantedIsSubsequence | dingo/gw/pipe/utils.py:4-9 | the kept lines appear in their original order |
| PipeUtils.WantedShorter | dingo/gw/pipe/utils.py:4-10 | the result is never longer than the input |
| PipeUtils.WantedIdempotent | dingo/gw/pipe/utils.py:4-10 | filtering twice gives the same lines as filtering once |
| PipeUtils.StripIsIdempotent | dingo/gw/pipe/utils.py:1-10 | cleaning an already cleaned job changes nothing |

## Left out

- Numeric signal processing is not modelled. This covers `get_window`, the window product, the FFT, the cyclic time shift, `psd ** 0.5` and `domain.update_data`. They are floating-point library calls and appear only as the functions `strainToDomain` and `asdToDomain` of `Env`. A failure of `get_window` is not modelled.
- `download_raw_data`, `sample_with_npe` and `sample_with_gnpe` are parameters. Their code is not part of this model. So are the GNPE iteration state machine and the importance weights and their diagnostics: `Result.importance_sample`, `sample_synthetic_phase` and `PosteriorModel` are not part of this model.
- HDF5 persistence is not modelled: `save_dataset`, `load_dataset` and `DingoDataset.to_file`. An append is modelled as adding the entry and recording the settings, which is what `load_raw_data` relies on.
- DomainTransform.DataToDomain: failures of the numeric calls on lines 97-110 of inference_pipeline.py are not modelled, because `strainToDomain` and `asdToDomain` are total. These are a ZeroDivisionError for `f_s` = 0, a TypeError for a non-numeric `f_s` and a failing cyclic time shift for a non-numeric `time_buffer`. Success is therefore stated for the key structure only.
- DatasetUtils.ValuesEqualIdentical: a numeric cell is a real number, so Python's int, float and bool cells are not told apart inside a container, and neither are 0.0 and -0.0. In Python, `{"a": [1]}` and `{"a": [1.0]}` pass the check without being identical, and so do `{"x": 0.0}` and `{"x": -0.0}`. Identity therefore holds in the model only; in Python the accepted values are indistinguishable by `==`. The same applies to DictsEqualIdentical and to the settings that SuccessfulLoadIsStored finds in the file.
- PipeUtils.StripUnwantedSubmissionKeys: the job is updated in place in Python; the model returns the cleaned job as a new value instead, which is observably the same for a caller that holds only that job.
- `str(time_event)` is the parameter `eventKey`, because Python's float formatting is not modelled.
- `convert_string_to_dict` and `IMPORTANCE_SAMPLING_SETTINGS` come from modules that are not part of this model. They are given as `Presets`.
- ImportanceSampling.ImportanceSamplingSettings: the preset dict is assigned without a copy and then updated in place, which mutates the global registry. The model treats presets as immutable values, so this aliasing is not modelled.
- `str.lower` is modelled for ASCII letters only.
- Leaf comparison does not model numpy broadcasting. Leaves of different lengths are unequal. Python's identity shortcut inside lists is not modelled either: in Python, `[x] == [x]` is true for the same NaN object.
- ImportanceSampling.RunSampler: `request_cpus` is modelled as a natural number, and `print_summary` and the result file are not modelled.
- `sample_posterior_of_event`'s `device` and `as_type` arguments, and the loading of a model from a file name, are not modelled. A `Model` is given already loaded.
- `load_raw_data` with `settings=None` is not modelled: the download's `**settings` requires a mapping, and every caller passes one.
- Argument parsing, `main`, logging and printing are not modelled. So are the import of `prepare_log_prob`, the dataset generation script, the transforms tutorial and the injection script.

## Findings

| source | as written | input that shows it | evidently intended | confidence | as-written member | corrected member |
|---|---|---|---|---|---|---|
| dingo/gw/pipe/importance_sampling.py:114 | `settings.lower() == ["default"]` compares a string with a list, which is never true | the settings string "default" is passed to the settings parser instead of keeping the defaults | `settings.lower() in ["default"]`, as in the next branch | high; not executed | ImportanceSampling.DefaultStringIsParsed | ImportanceSampling.IntendedImportanceSamplingSettings |

=== FILE: dataset_utils.dfy ===
/** Structural settings equality and the read side of the event-data cache
    (dingo/core/utils/dataset_utils.py). */
module DatasetUtils {
  import opened Wrappers
  import opened Values

  // ---------------------------------------------------------------------
  // Structural equality
  // ---------------------------------------------------------------------

  /** `a == b` on two cells; NaN is unequal to everything. */
  predicate CellEq(a: Scalar, b: Scalar) {
    match a
    case Num(x) => b.Num? && b.x == x
    case NaN => false
    case Text(s) => b.Text? && b.s == s
    case Null => b.Null?
  }

  /** `np.all(a == b)` for two leaves of the same type: the same number of
      cells, each pair equal. */
  predicate CellsAllEqual(a: seq<Scalar>, b: seq<Scalar>) {
    |a| == |b| && forall i :: 0 <= i < |a| ==> CellEq(a[i], b[i])
  }

  /** Reference definition of settings equality: the same keys, and under
      every key values that are equal. */
  predicate DictsEqual(a: Settings, b: Settings)
    decreases Dict(a), 0
  {
    a.Keys == b.Keys && forall k :: k in a ==> ValuesEqual(a[k], b[k])
  }

  /** Two values are equal when their runtime types are identical and they
      are equal dicts or elementwise-equal leaves. */
  predicate ValuesEqual(x: Value, y: Value)
    decreases x, 1
  {
    TypeOf(x) == TypeOf(y) &&
    match x
    case Dict(ex) => DictsEqual(ex, y.entries)
    case Leaf(_, cx) => CellsAllEqual(cx, y.cells)
  }

  /** The check as the source performs it: key sets first, then one key at
      a time with an early exit on the first type mismatch, unequal nested
      dict or unequal leaf. The visiting order is immaterial: the verdict
      is the same for every order. */
  method CheckDictsAreEqual(a: Settings, b: Settings) returns (equal: bool)
    ensures equal <==> DictsEqual(a, b)
    ensures a.Keys != b.Keys ==> !equal
    ensures (exists k :: k in a && k in b && TypeOf(a[k]) != TypeOf(b[k])) ==> !equal
    decreases Dict(a)
  {
    if a.Keys != b.Keys {
      return false;
    }
    var todo := a.Keys;
    while todo != {}
      invariant todo <= a.Keys
      invariant forall k :: k in a.Keys - todo ==> ValuesEqual(a[k], b[k])
      decreases todo
    {
      var k :| k in todo;
      var va, vb := a[k], b[k];
      if TypeOf(va) != TypeOf(vb) {
        return false;
      }
      if va.Dict? {
        var inner := CheckDictsAreEqual(va.entries, vb.entries);
        if !inner {
          return false;
        }
      } else if !CellsAllEqual(va.cells, vb.cells) {
        return false;
      }
      todo := todo - {k};
    }
    return true;
  }

  /** No NaN anywhere inside the value. */
  predicate NoNaN(v: Value) {
    match v
    case Dict(m) => forall k :: k in m ==> NoNaN(m[k])
    case Leaf(_, cells) => NaN !in cells
  }

  predicate SettingsNoNaN(s: Settings) {
    NoNaN(Dict(s))
  }

  lemma {:induction false} ValuesEqualSymmetric(x: Value, y: Value)
    ensures ValuesEqual(x, y) <==> ValuesEqual(y, x)
    decreases x
  {
    match x
    case Dict(ex) =>
      if y.Dict? && ex.Keys == y.entries.Keys {
        forall k | k in ex
          ensures ValuesEqual(ex[k], y.entries[k]) <==> ValuesEqual(y.entries[k], ex[k])
        {
          ValuesEqualSymmetric(ex[k], y.entries[k]);
        }
      }
    case Leaf(_, _) =>
  }

  /** Swapping the arguments never changes the verdict. */
  lemma DictsEqualSymmetric(a: Settings, b: Settings)
    ensures DictsEqual(a, b) <==> DictsEqual(b, a)
  {
    ValuesEqualSymmetric(Dict(a), Dict(b));
  }

  /** A value equals itself exactly when it holds no NaN. */
  lemma {:induction false} ValuesEqualReflexive(x: Value)
    ensures ValuesEqual(x, x) <==> NoNaN(x)
    decreases x
  {
    match x
    case Dict(m) =>
      forall k | k in m
        ensures ValuesEqual(m[k], m[k]) <==> NoNaN(m[k])
      {
        ValuesEqualReflexive(m[k]);
      }
    case Leaf(_, cells) =>
      if NaN in cells {
        var i :| 0 <= i < |cells| && cells[i] == NaN;
        assert !CellEq(cells[i], cells[i]);
      }
  }

  /** Settings equal themselves exactly when they hold no NaN. */
  lemma DictsEqualReflexive(s: Settings)
    ensures DictsEqual(s, s) <==> SettingsNoNaN(s)
  {
    ValuesEqualReflexive(Dict(s));
  }

  /** Equality is exact: two values the check accepts are identical. */
  lemma {:induction false} ValuesEqualIdentical(x: Value, y: Value)
    requires ValuesEqual(x, y)
    ensures x == y
    decreases x
  {
    match x
    case Dict(ex) =>
      var ey := y.entries;
      forall k | k in ex
        ensures ex[k] == ey[k]
      {
        ValuesEqualIdentical(ex[k], ey[k]);
      }
      assert ex == ey;
    case Leaf(_, cx) =>
      var cy := y.cells;
      assert forall i :: 0 <= i < |cx| ==> cx[i] == cy[i];
      assert cx == cy;
  }

  lemma DictsEqualIdentical(a: Settings, b: Settings)
    requires DictsEqual(a, b)
    ensures a == b
  {
    ValuesEqualIdentical(Dict(a), Dict(b));
  }

  // ---------------------------------------------------------------------
  // Reading a dataset file
  // ---------------------------------------------------------------------

  /** A dataset file: its `settings` attribute (absent in files written
      without settings) and its data entries by key. */
  datatype Dataset<D> = Dataset(settings: Option<Settings>, entries: map<string, D>)

  /** The dataset files that exist, by file name. */
  type Files<D> = map<string, Dataset<D>>

  /** `load_data_from_file(file_name, data_key, settings)`: nothing when the
      file does not exist; otherwise, when settings are given, they are
      compared with the stored settings before the key is looked up; then
      the stored entry, or nothing when the key is absent. */
  function LoadDataFromFile<D>(files: Files<D>, fileName: string, key: string, settings: Option<Settings>)
    : (r: Result<Option<D>>)
    ensures fileName !in files ==> r == Ok(None)
    ensures fileName in files && settings.Some? && files[fileName].settings.Some?
            && !DictsEqual(settings.value, files[fileName].settings.value)
            ==> r.Err? && r.error.ValueError?
    ensures fileName in files && settings.Some? && files[fileName].settings.None?
            ==> r.Err? && r.error.AttributeError?
    ensures r.Err? ==> fileName in files && settings.Some?
    ensures r.Ok? && r.value.Some? ==>
              fileName in files && key in files[fileName].entries
              && r.value.value == files[fileName].entries[key]
    ensures fileName in files && (settings.None? ||
              (files[fileName].settings.Some? && DictsEqual(settings.value, files[fileName].settings.value)))
            ==> r.Ok? && (r.value.Some? <==> key in files[fileName].entries)
  {
    if fileName !in files then
      Ok(None)
    else
      var dataset := files[fileName];
      if settings.Some? && dataset.settings.None? then
        Err(AttributeError("the stored settings are None"))
      else if settings.Some? && !DictsEqual(settings.value, dataset.settings.value) then
        Err(ValueError("settings do not match the saved settings"))
      else if key in dataset.entries then
        Ok(Some(dataset.entries[key]))
      else
        Ok(None)
  }
}

=== FILE: domain_transform.dfy ===
/** Raw-data settings derived from a model's metadata, and the key structure
    of the conversion of raw data into the model's domain
    (`parse_settings_for_raw_data` and `data_to_domain` in
    dingo/gw/inference/inference_pipeline.py). */
module DomainTransform {
  import opened Wrappers
  import opened Values
  import opened InferenceTypes

  /** The six keys of the raw-data settings. */
  const RawDataKeys: set<string> := {"window", "detectors", "time_segment", "time_psd", "time_buffer", "f_s"}

  /** `model_metadata["dataset_settings"]["domain"]["type"]`. */
  function DomainTypeOf(metadata: Settings): Result<Value> {
    var datasetSettings :- Index(Dict(metadata), "dataset_settings");
    var domain :- Index(datasetSettings, "domain");
    Index(domain, "type")
  }

  /** `model_metadata["train_settings"]["data"]`. */
  function TrainDataSettings(metadata: Settings): Result<Value> {
    var trainSettings :- Index(Dict(metadata), "train_settings");
    Index(trainSettings, "data")
  }

  /** The domain type names the frequency domain. */
  predicate IsFrequencyDomainType(t: Value) {
    t == StrValue("FrequencyDomain")
  }

  /** `parse_settings_for_raw_data(model_metadata, time_psd, time_buffer)`:
      for a frequency-domain model, the window and detectors of the training
      data, the segment length `T` and sampling rate `f_s` read out of the
      window, and the two arguments; any other domain type raises
      NotImplementedError, and a missing key raises KeyError. */
  function ParseSettingsForRawData(metadata: Settings, timePsd: Value, timeBuffer: Value): (r: Result<Settings>)
    ensures DomainTypeOf(metadata).Err? ==> r == Err(DomainTypeOf(metadata).error)
    ensures DomainTypeOf(metadata).Ok? && !IsFrequencyDomainType(DomainTypeOf(metadata).value)
            ==> r.Err? && r.error.NotImplementedError?
    ensures r.Ok? ==> DomainTypeOf(metadata) == Ok(StrValue("FrequencyDomain"))
    ensures r.Ok? ==>
              && r.value.Keys == RawDataKeys
              && TrainDataSettings(metadata).Ok?
              && Index(TrainDataSettings(metadata).value, "window") == Ok(r.value["window"])
              && Index(TrainDataSettings(metadata).value, "detectors") == Ok(r.value["detectors"])
              && Index(r.value["window"], "T") == Ok(r.value["time_segment"])
              && Index(r.value["window"], "f_s") == Ok(r.value["f_s"])
              && r.value["time_psd"] == timePsd
              && r.value["time_buffer"] == timeBuffer
    // a frequency-domain model whose metadata has every key read succeeds
    ensures DomainTypeOf(metadata) == Ok(StrValue("FrequencyDomain"))
            && TrainDataSettings(metadata).Ok?
            && Index(TrainDataSettings(metadata).value, "window").Ok?
            && Index(TrainDataSettings(metadata).value, "detectors").Ok?
            && Index(Index(TrainDataSettings(metadata).value, "window").value, "T").Ok?
            && Index(Index(TrainDataSettings(metadata).value, "window").value, "f_s").Ok?
            ==> r.Ok?
    // past the domain type, every failure is a missing key, an array indexed
    // by a string, or another non-dict being indexed
    ensures r.Err? && DomainTypeOf(metadata) == Ok(StrValue("FrequencyDomain"))
            ==> r.error.KeyError? || r.error.TypeError? || r.error.IndexError?
  {
    var domainType :- DomainTypeOf(metadata);
    if !IsFrequencyDomainType(domainType) then
      Err(NotImplementedError("unknown domain type"))
    else
      var dataSettings :- TrainDataSettings(metadata);
      var window :- Index(dataSettings, "window");
      var detectors :- Index(dataSettings, "detectors");
      var timeSegment :- Index(window, "T");
      var samplingRate :- Index(window, "f_s");
      Ok(map[
        "window" := window,
        "detectors" := detectors,
        "time_segment" := timeSegment,
        "time_psd" := timePsd,
        "time_buffer" := timeBuffer,
        "f_s" := samplingRate
      ])
  }

  /** Two frequency-domain models whose training data agree on window and
      detectors ask for the same raw data: their derived settings coincide.
      Everything else in their metadata is irrelevant to the cache. */
  lemma SameWindowSameRawDataSettings(m1: Settings, m2: Settings, timePsd: Value, timeBuffer: Value)
    requires DomainTypeOf(m1) == Ok(StrValue("FrequencyDomain")) == DomainTypeOf(m2)
    requires TrainDataSettings(m1).Ok? && TrainDataSettings(m2).Ok?
    requires Index(TrainDataSettings(m1).value, "window") == Index(TrainDataSettings(m2).value, "window")
    requires Index(TrainDataSettings(m1).value, "detectors") == Index(TrainDataSettings(m2).value, "detectors")
    ensures ParseSettingsForRawData(m1, timePsd, timeBuffer) == ParseSettingsForRawData(m2, timePsd, timeBuffer)
  {
  }

  /** `data_to_domain(raw_data, settings_raw_data, domain, window=...)`. Only
      the frequency domain is supported; the `window` keyword is read first;
      `f_s` and `time_buffer` are read once a strain series is processed.
      Each strain series becomes an entry under "waveform" and each noise
      spectrum an entry under "asds", under the same detector name. */
  function DataToDomain(env: Env, raw: RawData, settingsRaw: Settings, domain: Domain, window: Option<Value>)
    : (r: Result<DomainData>)
    ensures !domain.FrequencyDomain? ==> r.Err? && r.error.NotImplementedError?
    ensures r.Ok? <==> domain.FrequencyDomain? && window.Some?
                       && (raw.strain == map[] || ("f_s" in settingsRaw && "time_buffer" in settingsRaw))
    ensures r.Ok? ==> r.value.waveform.Keys == raw.strain.Keys && r.value.asds.Keys == raw.psd.Keys
    ensures r.Ok? ==> forall det :: det in raw.strain ==>
              r.value.waveform[det]
              == env.strainToDomain(raw.strain[det], window.value, settingsRaw["f_s"], settingsRaw["time_buffer"], domain)
    ensures r.Ok? ==> forall det :: det in raw.psd ==> r.value.asds[det] == env.asdToDomain(raw.psd[det], domain)
  {
    if !domain.FrequencyDomain? then
      Err(NotImplementedError("unknown domain type"))
    else if window.None? then
      Err(KeyError("window"))
    else if raw.strain != map[] && "f_s" !in settingsRaw then
      Err(KeyError("f_s"))
    else if raw.strain != map[] && "time_buffer" !in settingsRaw then
      Err(KeyError("time_buffer"))
    else
      var waveform := map det | det in raw.strain ::
        env.strainToDomain(raw.strain[det], window.value, settingsRaw["f_s"], settingsRaw["time_buffer"], domain);
      var asds := map det | det in raw.psd :: env.asdToDomain(raw.psd[det], domain);
      Ok(DomainData(waveform, asds))
  }

  /** Derived settings always carry what the conversion reads: for settings
      produced by `parse_settings_for_raw_data`, the conversion fails only
      for a domain that is not the frequency domain or a missing window. */
  lemma ParsedSettingsFeedConversion(env: Env, metadata: Settings, timePsd: Value, timeBuffer: Value,
                                     raw: RawData, domain: Domain, window: Option<Value>)
    requires ParseSettingsForRawData(metadata, timePsd, timeBuffer).Ok?
    ensures var settingsRaw := ParseSettingsForRawData(metadata, timePsd, timeBuffer).value;
            DataToDomain(env, raw, settingsRaw, domain, window).Ok? <==> domain.FrequencyDomain? && window.Some?
  {
  }
}

=== FILE: event_data.dfy ===
/** Cache-or-download of raw event data: `load_raw_data` in
    dingo/gw/inference/inference_pipeline.py on top of
    `load_data_from_file`. */
module EventData {
  import opened Wrappers
  import opened Values
  import opened DatasetUtils
  import opened InferenceTypes

  /** What one call leaves behind: its result, the dataset files after it,
      and the downloads and appends it made, in order. */
  datatype CacheRun = CacheRun(result: Result<RawData>, files: Files<RawData>, effects: seq<Effect>)

  /** `DingoDataset({event: data, "settings": settings}).to_file(file_name, mode="a")`:
      the file (created when missing) gains the entry under `key` and
      records `settings`. */
  function AppendEvent(files: Files<RawData>, fileName: string, key: string, data: RawData, settings: Settings)
    : (r: Files<RawData>)
    ensures r.Keys == files.Keys + {fileName}
    ensures r[fileName].settings == Some(settings)
    ensures key in r[fileName].entries && r[fileName].entries[key] == data
    ensures fileName in files ==> r[fileName].entries.Keys == files[fileName].entries.Keys + {key}
    ensures fileName !in files ==> r[fileName].entries.Keys == {key}
    ensures fileName in files ==>
              forall k :: k in files[fileName].entries && k != key ==>
                r[fileName].entries[k] == files[fileName].entries[k]
    ensures forall f :: f in files && f != fileName ==> r[f] == files[f]
  {
    var old_entries := if fileName in files then files[fileName].entries else map[];
    files[fileName := Dataset(Some(settings), old_entries[key := data])]
  }

  /** The event is stored in the named file. */
  predicate Stored(files: Files<RawData>, fileName: string, key: string) {
    fileName in files && key in files[fileName].entries
  }

  /** The named file does not exist or records settings equal to `settings`. */
  predicate Consistent(files: Files<RawData>, fileName: string, settings: Settings) {
    fileName !in files
    || (files[fileName].settings.Some? && DictsEqual(settings, files[fileName].settings.value))
  }

  /** `load_raw_data(time_event, settings, file_name)`. The event key is
      `str(time_event)`. With a file name, the file is consulted first:
      its settings are checked (a mismatch raises before anything else
      happens) and a stored entry is returned as it is. Otherwise the data
      is downloaded once and, with a file name, appended to the file. */
  function LoadRawData(env: Env, time: real, settings: Settings, fileName: Option<string>, files: Files<RawData>)
    : (run: CacheRun)
    // never more than one download and one append
    ensures Downloads(run.effects) <= 1 && Appends(run.effects) <= 1
    ensures forall e :: e in run.effects ==> e.Downloaded? || e.Appended?
    // a hit: the stored data, no download, no write
    ensures fileName.Some? && Consistent(files, fileName.value, settings)
            && Stored(files, fileName.value, env.eventKey(time))
            ==> run == CacheRun(Ok(files[fileName.value].entries[env.eventKey(time)]), files, [])
    // a settings mismatch fails before any download, whether or not the key is stored
    ensures fileName.Some? && !Consistent(files, fileName.value, settings)
            ==> run.result.Err? && run.effects == [] && run.files == files
    ensures fileName.Some? && fileName.value in files && files[fileName.value].settings.Some?
            && !DictsEqual(settings, files[fileName.value].settings.value)
            ==> run.result.Err? && run.result.error.ValueError?
    // a miss: exactly one download, of this event, with these settings
    ensures (fileName.None? || (Consistent(files, fileName.value, settings)
                                && !Stored(files, fileName.value, env.eventKey(time))))
            ==> run.result == env.download(time, settings)
                && Downloads(run.effects) == 1 && run.effects[0] == Downloaded(time)
    // an append happens exactly for a successful download with a file name, under the event key
    ensures Appends(run.effects) == 1 <==> fileName.Some? && Downloads(run.effects) == 1 && run.result.Ok?
    ensures Appends(run.effects) == 1 ==>
              run.files == AppendEvent(files, fileName.value, env.eventKey(time), run.result.value, settings)
    ensures Appends(run.effects) == 0 ==> run.files == files
  {
    var key := env.eventKey(time);
    var cached := if fileName.Some? then LoadDataFromFile(files, fileName.value, key, Some(settings)) else Ok(None);
    if cached.Err? then
      CacheRun(Err(cached.error), files, [])
    else if cached.value.Some? then
      CacheRun(Ok(cached.value.value), files, [])
    else
      var downloaded := env.download(time, settings);
      if downloaded.Err? then
        CacheRun(downloaded, files, [Downloaded(time)])
      else if fileName.Some? then
        var effects := [Downloaded(time), Appended(fileName.value, key)];
        assert effects[1..] == [Appended(fileName.value, key)] && effects[1..][1..] == [];
        assert Downloads(effects[1..]) == 0 && Appends(effects[1..]) == 1;
        assert Downloads(effects) == 1 && Appends(effects) == 1;
        CacheRun(downloaded, AppendEvent(files, fileName.value, key, downloaded.value, settings), effects)
      else
        CacheRun(downloaded, files, [Downloaded(time)])
  }

  /** After a successful call with a file name, the file holds the returned
      data under the event key, and records exactly the requested settings. */
  lemma SuccessfulLoadIsStored(env: Env, time: real, settings: Settings, fileName: string, files: Files<RawData>)
    requires LoadRawData(env, time, settings, Some(fileName), files).result.Ok?
    ensures var run := LoadRawData(env, time, settings, Some(fileName), files);
            && Stored(run.files, fileName, env.eventKey(time))
            && run.files[fileName].entries[env.eventKey(time)] == run.result.value
            && run.files[fileName].settings == Some(settings)
  {
    var run := LoadRawData(env, time, settings, Some(fileName), files);
    if Appends(run.effects) == 0 {
      assert Consistent(files, fileName, settings) && fileName in files;
      DictsEqualIdentical(settings, files[fileName].settings.value);
    }
  }

  /** A cache miss followed by the same call is a hit: after any successful
      call with a file name and NaN-free settings, repeating it returns the
      identical data with no download and no write. */
  lemma RepeatedLoadHits(env: Env, time: real, settings: Settings, fileName: string, files: Files<RawData>)
    requires SettingsNoNaN(settings)
    requires LoadRawData(env, time, settings, Some(fileName), files).result.Ok?
    ensures var first := LoadRawData(env, time, settings, Some(fileName), files);
            var second := LoadRawData(env, time, settings, Some(fileName), first.files);
            second == CacheRun(first.result, first.files, [])
  {
    SuccessfulLoadIsStored(env, time, settings, fileName, files);
    DictsEqualReflexive(settings);
  }

  /** Writes are append-only: every entry stored before a call is still
      stored, unchanged, after it, and so are the recorded settings of
      every file that had them. */
  lemma LoadRawDataAppendOnly(env: Env, time: real, settings: Settings, fileName: Option<string>, files: Files<RawData>)
    ensures var run := LoadRawData(env, time, settings, fileName, files);
            && files.Keys <= run.files.Keys
            && (forall f, k :: f in files && k in files[f].entries ==>
                 k in run.files[f].entries && run.files[f].entries[k] == files[f].entries[k])
            && (forall f :: f in files && files[f].settings.Some? ==> run.files[f].settings == files[f].settings)
  {
    var run := LoadRawData(env, time, settings, fileName, files);
    if Appends(run.effects) == 1 {
      var f := fileName.value;
      var key := env.eventKey(time);
      assert !Stored(files, f, key) && Consistent(files, f, settings);
      if f in files {
        DictsEqualIdentical(settings, files[f].settings.value);
      }
    }
  }

  /** With NaN in the settings, a file that has recorded them never serves
      the event again: every later call with those settings raises. */
  lemma NaNSettingsNeverHit(env: Env, time: real, settings: Settings, fileName: string, files: Files<RawData>)
    requires !SettingsNoNaN(settings)
    requires fileName in files && files[fileName].settings == Some(settings)
    ensures var run := LoadRawData(env, time, settings, Some(fileName), files);
            run.result.Err? && run.result.error.ValueError? && run.effects == []
  {
    DictsEqualReflexive(settings);
  }
}

=== FILE: importance_sampling.dfy ===
/** Settings handling of the importance-sampling stage
    (dingo/gw/pipe/importance_sampling.py): the proposal column guard, the
    precedence of settings presets and user settings, and how the settings
    drive the sampler calls. */
module ImportanceSampling {
  import opened Wrappers
  import opened Values

  /** `_load_proposal`: the proposal samples must have a `log_prob` column. */
  function LoadProposal(columns: set<string>): (r: Result<set<string>>)
    ensures r.Ok? <==> "log_prob" in columns
    ensures r.Ok? ==> r.value == columns
    ensures r.Err? ==> r.error == KeyError("log_prob")
  {
    if "log_prob" in columns then Ok(columns) else Err(KeyError("log_prob"))
  }

  /** The named presets and the settings-string parser the setter relies on:
      `IMPORTANCE_SAMPLING_SETTINGS["PhaseRecoveryDefault"]` and
      `convert_string_to_dict` (None when it raises). */
  datatype Presets = Presets(phaseRecoveryDefault: Settings, parse: string -> Option<Settings>)

  /** The starting point before any argument is considered: the phase
      recovery preset when the proposal has no `phase` column, empty
      otherwise. */
  function BaseSettings(columns: set<string>, presets: Presets): (r: Settings)
    ensures r.Keys <= presets.phaseRecoveryDefault.Keys
    ensures forall k :: k in r ==> r[k] == presets.phaseRecoveryDefault[k]
    ensures r != map[] ==> "phase" !in columns
    ensures "phase" !in columns ==> r == presets.phaseRecoveryDefault
  {
    if "phase" !in columns then presets.phaseRecoveryDefault else map[]
  }

  /** The name that selects the phase recovery preset, compared after
      lower-casing. */
  const PhaseRecoveryName: string := "phaserecoverydefault"

  /** The setter of `importance_sampling_settings`. No argument resets the
      settings to empty. The first string test compares the lower-cased
      string with a one-element list, which Python never finds equal, so it
      never fires; "phaserecoverydefault" in any case merges the preset over
      the base; any other string, "default" included, is parsed and its
      entries merged over the base. */
  function ImportanceSamplingSettings(columns: set<string>, arg: Option<string>, presets: Presets)
    : (r: Result<Settings>)
    ensures arg.None? ==> r == Ok(map[])
    ensures arg.Some? && Lower(arg.value) == PhaseRecoveryName ==> r == Ok(presets.phaseRecoveryDefault)
    ensures arg.Some? && Lower(arg.value) != PhaseRecoveryName ==>
              match presets.parse(arg.value)
              case None => r == Err(ParseFailed(arg.value))
              case Some(user) =>
                && r.Ok?
                && r.value.Keys == user.Keys + (if "phase" in columns then {} else presets.phaseRecoveryDefault.Keys)
                && (forall k :: k in user ==> r.value[k] == user[k])
                && (forall k :: k in r.value && k !in user ==> r.value[k] == presets.phaseRecoveryDefault[k])
  {
    var base := BaseSettings(columns, presets);
    match arg
    case None => Ok(map[])
    case Some(s) =>
      if Lower(s) in [PhaseRecoveryName] then
        assert base + presets.phaseRecoveryDefault == presets.phaseRecoveryDefault;
        Ok(base + presets.phaseRecoveryDefault)
      else
        match presets.parse(s)
        case None => Err(ParseFailed(s))
        case Some(user) => Ok(base + user)
  }

  /** `d.get(key)`. */
  function Get(d: Settings, key: string): Option<Value> {
    if key in d then Some(d[key]) else None
  }

  /** The precedence chain, key by key, as an independent reference: with
      no argument nothing is set; otherwise a user entry wins, then the
      preset selected by name, then the preset implied by a missing `phase`
      column. */
  function Resolve(columns: set<string>, arg: Option<string>, presets: Presets, key: string): Option<Value>
    requires arg.None? || Lower(arg.value) == PhaseRecoveryName || presets.parse(arg.value).Some?
  {
    if arg.None? then None
    else if Lower(arg.value) == PhaseRecoveryName then Get(presets.phaseRecoveryDefault, key)
    else if key in presets.parse(arg.value).value then Some(presets.parse(arg.value).value[key])
    else if "phase" !in columns then Get(presets.phaseRecoveryDefault, key)
    else None
  }

  /** The setter agrees with the precedence chain on every key. */
  lemma SettingsFollowPrecedence(columns: set<string>, arg: Option<string>, presets: Presets, key: string)
    requires arg.None? || Lower(arg.value) == PhaseRecoveryName || presets.parse(arg.value).Some?
    ensures ImportanceSamplingSettings(columns, arg, presets).Ok?
    ensures Get(ImportanceSamplingSettings(columns, arg, presets).value, key) == Resolve(columns, arg, presets, key)
  {
  }

  /** As written, the string "default" (in any case) does not keep the base
      settings: it takes the parsing path. */
  lemma DefaultStringIsParsed(columns: set<string>, arg: string, presets: Presets)
    requires Lower(arg) == "default"
    ensures ImportanceSamplingSettings(columns, Some(arg), presets)
            == match presets.parse(arg)
               case None => Err(ParseFailed(arg))
               case Some(user) => Ok(BaseSettings(columns, presets) + user)
  {
    assert Lower(arg) != PhaseRecoveryName by {
      assert |Lower(arg)| == 7 != |PhaseRecoveryName|;
    }
  }

  /** The setter with the evidently intended first test,
      `settings.lower() in ["default"]`: "default" keeps the base settings. */
  function IntendedImportanceSamplingSettings(columns: set<string>, arg: Option<string>, presets: Presets)
    : (r: Result<Settings>)
    ensures arg.Some? && Lower(arg.value) == "default" ==> r == Ok(BaseSettings(columns, presets))
    ensures arg.None? || Lower(arg.value) != "default" ==> r == ImportanceSamplingSettings(columns, arg, presets)
  {
    var base := BaseSettings(columns, presets);
    match arg
    case None => Ok(map[])
    case Some(s) =>
      if Lower(s) in ["default"] then
        Ok(base)
      else if Lower(s) in [PhaseRecoveryName] then
        Ok(base + presets.phaseRecoveryDefault)
      else
        match presets.parse(s)
        case None => Err(ParseFailed(s))
        case Some(user) => Ok(base + user)
  }

  /** The end of `__init__`: the proposal is loaded and checked before the
      settings argument is looked at. */
  function Initialize(columns: set<string>, arg: Option<string>, presets: Presets): (r: Result<Settings>)
    ensures "log_prob" !in columns ==> r == Err(KeyError("log_prob"))
    ensures "log_prob" in columns ==> r == ImportanceSamplingSettings(columns, arg, presets)
  {
    var checked :- LoadProposal(columns);
    ImportanceSamplingSettings(checked, arg, presets)
  }

  /** The column guard wins over a bad settings string: an unparsable string
      raises only once the proposal has a `log_prob` column. */
  lemma GuardBeforeSettings(columns: set<string>, s: string, presets: Presets)
    requires Lower(s) != PhaseRecoveryName && presets.parse(s).None?
    ensures Initialize(columns, Some(s), presets)
            == if "log_prob" in columns then Err(ParseFailed(s)) else Err(KeyError("log_prob"))
  {
  }

  /** What `run_sampler` does with the settings: the keyword arguments of the
      synthetic-phase step when it runs, and those of the importance-sampling
      call. */
  datatype SamplerPlan = SamplerPlan(
    syntheticPhase: Option<Settings>,
    numProcesses: nat,
    timeMarginalization: Option<Value>,
    phaseMarginalization: Option<Value>
  )

  /** `run_sampler`: the synthetic-phase step runs exactly when the settings
      have a `synthetic_phase` entry, with that entry's keywords and
      `num_processes` forced to the requested CPUs (a non-dict entry cannot
      be spread and raises TypeError); importance sampling then receives the
      time and phase marginalization entries, or None where absent. */
  function RunSampler(settings: Settings, requestCpus: nat): (r: Result<SamplerPlan>)
    ensures r.Err? <==> "synthetic_phase" in settings && !settings["synthetic_phase"].Dict?
    ensures r.Ok? ==> (r.value.syntheticPhase.Some? <==> "synthetic_phase" in settings)
    ensures r.Ok? && r.value.syntheticPhase.Some? ==>
              var user := settings["synthetic_phase"].entries;
              var kwargs := r.value.syntheticPhase.value;
              && kwargs.Keys == user.Keys + {"num_processes"}
              && kwargs["num_processes"] == IntValue(requestCpus)
              && forall k :: k in user && k != "num_processes" ==> kwargs[k] == user[k]
    ensures r.Ok? ==> r.value.numProcesses == requestCpus
    ensures r.Ok? ==> (r.value.timeMarginalization.Some? <==> "time_marginalization" in settings)
    ensures r.Ok? && "time_marginalization" in settings ==>
              r.value.timeMarginalization == Some(settings["time_marginalization"])
    ensures r.Ok? ==> (r.value.phaseMarginalization.Some? <==> "phase_marginalization" in settings)
    ensures r.Ok? && "phase_marginalization" in settings ==>
              r.value.phaseMarginalization == Some(settings["phase_marginalization"])
  {
    var synthetic :=
      if "synthetic_phase" !in settings then Ok(None)
      else match settings["synthetic_phase"]
        case Dict(user) => Ok(Some(user["num_processes" := IntValue(requestCpus)]))
        case Leaf(_, _) => Err(TypeError("synthetic_phase settings are not a mapping"));
    var kwargs :- synthetic;
    Ok(SamplerPlan(kwargs, requestCpus, Get(settings, "time_marginalization"), Get(settings, "phase_marginalization")))
  }

  /** Without a settings argument, importance sampling runs plainly: no
      synthetic-phase step and no marginalization, whether or not the
      proposal has a `phase` column. */
  lemma NoSettingsPlainImportanceSampling(columns: set<string>, presets: Presets, requestCpus: nat)
    ensures ImportanceSamplingSettings(columns, None, presets).Ok?
    ensures RunSampler(ImportanceSamplingSettings(columns, None, presets).value, requestCpus)
            == Ok(SamplerPlan(None, requestCpus, None, None))
  {
  }

  /** The sampler receives what the precedence chain selects: the
      synthetic-phase step runs exactly when the chain sets
      `synthetic_phase`, and the marginalization arguments are the chain's
      entries. */
  lemma SettingsReachSampler(columns: set<string>, arg: Option<string>, presets: Presets, requestCpus: nat)
    requires arg.None? || Lower(arg.value) == PhaseRecoveryName || presets.parse(arg.value).Some?
    ensures ImportanceSamplingSettings(columns, arg, presets).Ok?
    ensures var plan := RunSampler(ImportanceSamplingSettings(columns, arg, presets).value, requestCpus);
            plan.Ok? ==>
              && (plan.value.syntheticPhase.Some? <==> Resolve(columns, arg, presets, "synthetic_phase").Some?)
              && plan.value.timeMarginalization == Resolve(columns, arg, presets, "time_marginalization")
              && plan.value.phaseMarginalization == Resolve(columns, arg, presets, "phase_marginalization")
  {
  }
}

=== FILE: inference_types.dfy ===
/** The data the inference pipeline passes around, the calls it makes into
    code outside the model, and the trace of those calls
    (dingo/gw/inference/inference_pipeline.py). */
module InferenceTypes {
  import opened Wrappers
  import opened Values

  /** A time series or spectrum; its numeric content is never inspected. */
  type Series = seq<real>

  /** Raw event data: strain time series and noise power spectral
      densities, each by detector name. */
  datatype RawData = RawData(strain: map<string, Series>, psd: map<string, Series>)

  /** What the network consumes: whitened-domain strain under "waveform"
      and amplitude spectral densities under "asds", by detector. */
  datatype DomainData = DomainData(waveform: map<string, Series>, asds: map<string, Series>)

  /** The domain a model was trained on; only the frequency domain is
      supported by the pipeline. */
  datatype Domain = FrequencyDomain(parameters: Settings) | OtherDomain(name: string)

  /** A loaded posterior model: its metadata dictionary and the domain its
      `build_domain()` returns. */
  datatype Model = Model(name: string, metadata: Settings, domain: Domain)

  /** Posterior samples, one array per parameter name. */
  type Samples = map<string, seq<real>>

  /** The calls into code the model does not describe. */
  datatype Env = Env(
    // `str(time_event)`: the text form of a GPS time
    eventKey: real -> string,
    // `download_raw_data(time_event, **settings)`
    download: (real, Settings) -> Result<RawData>,
    // window, FFT, cyclic time shift and `domain.update_data` for one strain
    // series, given the window settings, `f_s` and `time_buffer`
    strainToDomain: (Series, Value, Value, Value, Domain) -> Series,
    // `domain.update_data(psd ** 0.5, low_value=1.0)` for one noise spectrum
    asdToDomain: (Series, Domain) -> Series,
    // `sample_with_npe(domain_data, model, num_samples)`
    sampleNpe: (DomainData, Model, nat) -> Samples,
    // `sample_with_gnpe(domain_data, model, samples_init, num_gnpe_iterations)`
    sampleGnpe: (DomainData, Model, Option<Samples>, nat) -> Samples
  )

  /** One observable call made by the pipeline. */
  datatype Effect =
    | Downloaded(time: real)
    | Appended(fileName: string, key: string)
    | SampledNpe(model: string, numSamples: nat)
    | SampledGnpe(model: string, init: Option<Samples>, iterations: nat)

  function Downloads(trace: seq<Effect>): nat {
    if trace == [] then 0
    else (if trace[0].Downloaded? then 1 else 0) + Downloads(trace[1..])
  }

  function Appends(trace: seq<Effect>): nat {
    if trace == [] then 0
    else (if trace[0].Appended? then 1 else 0) + Appends(trace[1..])
  }

  /** The sampler calls of a trace, in order. */
  function SamplerCalls(trace: seq<Effect>): seq<Effect> {
    if trace == [] then []
    else (if trace[0].SampledNpe? || trace[0].SampledGnpe? then [trace[0]] else []) + SamplerCalls(trace[1..])
  }

  lemma {:induction false} CountsDistribute(s: seq<Effect>, t: seq<Effect>)
    ensures Downloads(s + t) == Downloads(s) + Downloads(t)
    ensures Appends(s + t) == Appends(s) + Appends(t)
    ensures SamplerCalls(s + t) == SamplerCalls(s) + SamplerCalls(t)
  {
    if s != [] {
      assert (s + t)[1..] == s[1..] + t;
      CountsDistribute(s[1..], t);
      assert SamplerCalls(s + t) == SamplerCalls([s[0]]) + SamplerCalls(s[1..] + t);
    } else {
      assert s + t == t;
    }
  }
}

=== FILE: pipe_utils.dfy ===
/** Cleaning a scheduler job before submission
    (`_strip_unwanted_submission_keys` in dingo/gw/pipe/utils.py). */
module PipeUtils {
  import opened Wrappers

  /** The parts of a submission job the cleaning touches; `attributes`
      stands for everything else about the job. */
  datatype Job = Job(
    getenv: Option<bool>,
    universe: Option<string>,
    extraLines: seq<string>,
    attributes: map<string, string>
  )

  /** A submit-file line that sets a priority or an accounting group. */
  predicate Unwanted(line: string) {
    "priority" <= line || "accounting_group" <= line
  }

  /** Reference filter: the wanted lines, in their original order. */
  function Wanted(lines: seq<string>): seq<string> {
    if lines == [] then []
    else Wanted(lines[..|lines| - 1]) + (if Unwanted(lines[|lines| - 1]) then [] else [lines[|lines| - 1]])
  }

  /** `b` can be obtained from `a` by deleting elements. */
  predicate IsSubsequence(b: seq<string>, a: seq<string>) {
    if b == [] then true
    else if a == [] then false
    else if b[|b| - 1] == a[|a| - 1] then IsSubsequence(b[..|b| - 1], a[..|a| - 1])
    else IsSubsequence(b, a[..|a| - 1])
  }

  /** `_strip_unwanted_submission_keys(job)`: `getenv` and `universe` are
      cleared and every extra line that starts with "priority" or
      "accounting_group" is dropped; nothing else changes. */
  method StripUnwantedSubmissionKeys(job: Job) returns (r: Job)
    ensures r.getenv.None? && r.universe.None?
    ensures r.attributes == job.attributes
    ensures r.extraLines == Wanted(job.extraLines)
    ensures forall line :: line in r.extraLines ==> !Unwanted(line)
    ensures |r.extraLines| <= |job.extraLines|
  {
    var lines := job.extraLines;
    var kept: seq<string> := [];
    var i := 0;
    while i < |lines|
      invariant 0 <= i <= |lines|
      invariant kept == Wanted(lines[..i])
    {
      assert lines[..i + 1][..i] == lines[..i];
      if !Unwanted(lines[i]) {
        kept := kept + [lines[i]];
      }
      i := i + 1;
    }
    assert lines[..i] == lines;
    WantedOnlyWanted(lines);
    WantedShorter(lines);
    r := Job(None, None, kept, job.attributes);
  }

  /** A line is kept exactly when it was there and is wanted. */
  lemma {:induction false} WantedOnlyWanted(lines: seq<string>)
    ensures forall line :: line in Wanted(lines) <==> line in lines && !Unwanted(line)
  {
    if lines != [] {
      var init := lines[..|lines| - 1];
      WantedOnlyWanted(init);
      assert lines == init + [lines[|lines| - 1]];
    }
  }

  lemma {:induction false} WantedShorter(lines: seq<string>)
    ensures |Wanted(lines)| <= |lines|
  {
    if lines != [] {
      WantedShorter(lines[..|lines| - 1]);
    }
  }

  /** Each wanted line is kept as often as it occurs; no unwanted line is. */
  lemma WantedKeepsMultiplicity(lines: seq<string>)
    ensures forall line :: !Unwanted(line) ==> multiset(Wanted(lines))[line] == multiset(lines)[line]
    ensures forall line :: Unwanted(line) ==> multiset(Wanted(lines))[line] == 0
  {
    forall line
      ensures multiset(Wanted(lines))[line] == if Unwanted(line) then 0 else multiset(lines)[line]
    {
      WantedCount(lines, line);
    }
  }

  lemma {:induction false} WantedCount(lines: seq<string>, line: string)
    ensures multiset(Wanted(lines))[line] == if Unwanted(line) then 0 else multiset(lines)[line]
  {
    if lines != [] {
      var init := lines[..|lines| - 1];
      var last := lines[|lines| - 1];
      WantedCount(init, line);
      assert lines == init + [last];
      assert multiset(lines) == multiset(init) + multiset{last};
      var tail := if Unwanted(last) then [] else [last];
      assert Wanted(lines) == Wanted(init) + tail;
      assert multiset(Wanted(lines)) == multiset(Wanted(init)) + multiset(tail);
    }
  }

  /** The kept lines appear in their original order. */
  lemma {:induction false} WantedIsSubsequence(lines: seq<string>)
    ensures IsSubsequence(Wanted(lines), lines)
  {
    if lines != [] {
      var init := lines[..|lines| - 1];
      var last := lines[|lines| - 1];
      assert init + [last] == lines;
      WantedIsSubsequence(init);
      var w := Wanted(lines);
      if Unwanted(last) {
        assert w == Wanted(init);
        SubsequenceExtend(w, init, last);
      } else {
        assert w[..|w| - 1] == Wanted(init);
      }
    }
  }

  /** Appending to `a` keeps `b` a subsequence of it. */
  lemma {:induction false} SubsequenceExtend(b: seq<string>, a: seq<string>, x: string)
    requires IsSubsequence(b, a)
    ensures IsSubsequence(b, a + [x])
    decreases |a|, 1
  {
    var ax := a + [x];
    assert ax[..|ax| - 1] == a;
    if b != [] && b[|b| - 1] == x {
      SubsequenceDropLast(b, a);
    }
  }

  /** Dropping the last element of `b` keeps it a subsequence. */
  lemma {:induction false} SubsequenceDropLast(b: seq<string>, a: seq<string>)
    requires b != [] && IsSubsequence(b, a)
    ensures IsSubsequence(b[..|b| - 1], a)
    decreases |a|, 0
  {
    var init := a[..|a| - 1];
    var last := a[|a| - 1];
    assert init + [last] == a;
    if b[|b| - 1] == last {
      SubsequenceExtend(b[..|b| - 1], init, last);
    } else {
      SubsequenceDropLast(b, init);
      SubsequenceExtend(b[..|b| - 1], init, last);
    }
  }

  /** Filtering twice keeps the same lines as filtering once. */
  lemma {:induction false} WantedIdempotent(lines: seq<string>)
    ensures Wanted(Wanted(lines)) == Wanted(lines)
  {
    if lines != [] {
      var init := lines[..|lines| - 1];
      var last := lines[|lines| - 1];
      WantedIdempotent(init);
      var w := Wanted(lines);
      if Unwanted(last) {
        assert w == Wanted(init);
      } else {
        assert w[..|w| - 1] == Wanted(init);
        assert w[|w| - 1] == last;
      }
    }
  }

  /** Cleaning an already cleaned job changes nothing. */
  method StripIsIdempotent(job: Job) returns (once: Job, twice: Job)
    ensures twice == once
    ensures once.extraLines == Wanted(job.extraLines)
  {
    once := StripUnwantedSubmissionKeys(job);
    twice := StripUnwantedSubmissionKeys(once);
    WantedIdempotent(job.extraLines);
  }
}

=== FILE: posterior_sampling.dfy ===
/** The control flow of `sample_posterior_of_event` in
    dingo/gw/inference/inference_pipeline.py: optional initial samples from
    a second model, the NPE/GNPE choice, and the order of settings
    derivation, data loading, domain conversion and sampling. */
module PosteriorSampling {
  import opened Wrappers
  import opened Values
  import opened DatasetUtils
  import opened InferenceTypes
  import opened EventData
  import opened DomainTransform

  /** The default `num_gnpe_iterations`; the nested call for the initial
      samples does not pass the caller's value and so always uses it. */
  const DefaultGnpeIterations: nat := 30

  /** The arguments the nested call for initial samples shares with its caller. */
  datatype Request = Request(time: real, fileName: Option<string>, timeBuffer: Value, timePsd: Value, numSamples: nat)

  /** What one call leaves behind: the samples or the exception, the dataset
      files after it, and its downloads, appends and sampler calls in order. */
  datatype SamplingRun = SamplingRun(result: Result<Samples>, files: Files<RawData>, effects: seq<Effect>)

  /** `"gnpe_time_shifts" in model.metadata["train_settings"]["data"]`: GNPE
      is implemented only for time shifts. */
  function UsesGnpe(metadata: Settings): (r: Result<bool>)
    ensures TrainDataSettings(metadata).Err? ==> r == Err(TrainDataSettings(metadata).error)
    ensures TrainDataSettings(metadata).Ok? && TrainDataSettings(metadata).value.Dict?
            ==> r == Ok("gnpe_time_shifts" in TrainDataSettings(metadata).value.entries)
  {
    var data :- TrainDataSettings(metadata);
    Contains(data, "gnpe_time_shifts")
  }

  /** The sampler call a model leads to: GNPE (with the given initial samples
      and iteration count) exactly when its training data settings name
      `gnpe_time_shifts`, NPE otherwise. */
  predicate IsSamplerCallFor(e: Effect, model: Model, numSamples: nat, init: Option<Samples>, iterations: nat) {
    match e
    case SampledNpe(name, n) => name == model.name && n == numSamples && UsesGnpe(model.metadata) == Ok(false)
    case SampledGnpe(name, i, k) => name == model.name && i == init && k == iterations
                                    && UsesGnpe(model.metadata) == Ok(true)
    case _ => false
  }

  /** Everything after `samples_init` is settled, for one model: the GNPE
      flag, the raw-data settings, the (cached) raw data, the domain data,
      then exactly one sampler call. */
  function SampleWithModel(env: Env, req: Request, model: Model, samplesInit: Option<Samples>,
                           numGnpeIterations: nat, files: Files<RawData>)
    : (run: SamplingRun)
    ensures Downloads(run.effects) <= 1 && Appends(run.effects) <= 1
    ensures |SamplerCalls(run.effects)| == (if run.result.Ok? then 1 else 0)
    ensures run.result.Ok? ==>
              IsSamplerCallFor(SamplerCalls(run.effects)[0], model, req.numSamples, samplesInit, numGnpeIterations)
    // configuration errors are raised before any download
    ensures UsesGnpe(model.metadata).Err? ==> run.result.Err? && run.effects == []
    ensures ParseSettingsForRawData(model.metadata, req.timePsd, req.timeBuffer).Err?
            ==> run.result.Err? && run.effects == [] && run.files == files
    ensures !model.domain.FrequencyDomain? ==> run.result.Err?
    // a failed load reaches the caller unchanged, with its effects and files
    ensures UsesGnpe(model.metadata).Ok? && ParseSettingsForRawData(model.metadata, req.timePsd, req.timeBuffer).Ok? ==>
              var load := LoadRawData(env, req.time, ParseSettingsForRawData(model.metadata, req.timePsd, req.timeBuffer).value,
                                      req.fileName, files);
              load.result.Err? ==> run == SamplingRun(Err(load.result.error), load.files, load.effects)
    // once the settings, the load and the domain are fine, it always samples
    ensures run.result.Ok? <==>
              && UsesGnpe(model.metadata).Ok?
              && ParseSettingsForRawData(model.metadata, req.timePsd, req.timeBuffer).Ok?
              && LoadRawData(env, req.time, ParseSettingsForRawData(model.metadata, req.timePsd, req.timeBuffer).value,
                             req.fileName, files).result.Ok?
              && model.domain.FrequencyDomain?
    // and returns what the chosen sampler makes of the loaded data in the model's domain
    ensures run.result.Ok? ==>
              var settingsRaw := ParseSettingsForRawData(model.metadata, req.timePsd, req.timeBuffer).value;
              var raw := LoadRawData(env, req.time, settingsRaw, req.fileName, files).result.value;
              var converted := DataToDomain(env, raw, settingsRaw, model.domain, Some(settingsRaw["window"]));
              && converted.Ok?
              && run.result.value
                 == if UsesGnpe(model.metadata).value
                    then env.sampleGnpe(converted.value, model, samplesInit, numGnpeIterations)
                    else env.sampleNpe(converted.value, model, req.numSamples)
  {
    match TrainDataSettings(model.metadata)
    case Err(e) => SamplingRun(Err(e), files, [])
    case Ok(data) =>
      match Contains(data, "gnpe_time_shifts")
      case Err(e) => SamplingRun(Err(e), files, [])
      case Ok(gnpe) =>
        match ParseSettingsForRawData(model.metadata, req.timePsd, req.timeBuffer)
        case Err(e) => SamplingRun(Err(e), files, [])
        case Ok(settingsRaw) =>
          assert UsesGnpe(model.metadata) == Ok(gnpe);
          var load := LoadRawData(env, req.time, settingsRaw, req.fileName, files);
          NoSamplerCalls(load.effects);
          if load.result.Err? then
            SamplingRun(Err(load.result.error), load.files, load.effects)
          else
            match SampleLoaded(env, req, model, data, gnpe, settingsRaw, load.result.value, samplesInit, numGnpeIterations)
            case Err(e) => SamplingRun(Err(e), load.files, load.effects)
            case Ok(out) =>
              CountsDistribute(load.effects, [out.1]);
              SamplingRun(Ok(out.0), load.files, load.effects + [out.1])
  }

  /** The tail of `SampleWithModel`, once the raw data is at hand: the domain
      conversion with the training window, then the sampler the GNPE flag
      selects. Returns the samples and the sampler call made. */
  function SampleLoaded(env: Env, req: Request, model: Model, data: Value, gnpe: bool, settingsRaw: Settings,
                        raw: RawData, samplesInit: Option<Samples>, numGnpeIterations: nat)
    : (r: Result<(Samples, Effect)>)
    requires TrainDataSettings(model.metadata) == Ok(data)
    requires UsesGnpe(model.metadata) == Ok(gnpe)
    requires ParseSettingsForRawData(model.metadata, req.timePsd, req.timeBuffer) == Ok(settingsRaw)
    ensures r.Ok? <==> model.domain.FrequencyDomain?
    ensures r.Ok? ==> IsSamplerCallFor(r.value.1, model, req.numSamples, samplesInit, numGnpeIterations)
    ensures r.Ok? ==>
              var converted := DataToDomain(env, raw, settingsRaw, model.domain, Some(settingsRaw["window"]));
              && converted.Ok?
              && r.value.0 == if gnpe then env.sampleGnpe(converted.value, model, samplesInit, numGnpeIterations)
                              else env.sampleNpe(converted.value, model, req.numSamples)
  {
    match Index(data, "window")
    case Err(e) => Err(e)
    case Ok(window) =>
      ParsedSettingsFeedConversion(env, model.metadata, req.timePsd, req.timeBuffer, raw, model.domain, Some(window));
      match DataToDomain(env, raw, settingsRaw, model.domain, Some(window))
      case Err(e) => Err(e)
      case Ok(domainData) =>
        if gnpe then Ok((env.sampleGnpe(domainData, model, samplesInit, numGnpeIterations),
                         SampledGnpe(model.name, samplesInit, numGnpeIterations)))
        else Ok((env.sampleNpe(domainData, model, req.numSamples), SampledNpe(model.name, req.numSamples)))
  }

  /** A trace of downloads and appends only holds no sampler call. */
  lemma {:induction false} NoSamplerCalls(trace: seq<Effect>)
    requires forall e :: e in trace ==> e.Downloaded? || e.Appended?
    ensures SamplerCalls(trace) == []
  {
    if trace != [] {
      assert trace[0] in trace;
      assert forall e :: e in trace[1..] ==> e in trace;
      NoSamplerCalls(trace[1..]);
    }
  }

  /** `sample_posterior_of_event(...)`. With `model_init`, the initial samples
      come from a nested call for that model, which itself has no
      `model_init`, no `samples_init` and the default iteration count; so
      there are at most two levels and at most two sampler calls. */
  function SamplePosteriorOfEvent(env: Env, req: Request, model: Model, modelInit: Option<Model>,
                                  samplesInit: Option<Samples>, numGnpeIterations: nat, files: Files<RawData>)
    : (run: SamplingRun)
    decreases if modelInit.Some? then 1 else 0
    ensures |SamplerCalls(run.effects)| <= (if modelInit.Some? then 2 else 1)
    ensures Downloads(run.effects) <= (if modelInit.Some? then 2 else 1)
    ensures Appends(run.effects) <= (if modelInit.Some? then 2 else 1)
    ensures run.result.Ok? && modelInit.None? ==>
              var calls := SamplerCalls(run.effects);
              |calls| == 1 && IsSamplerCallFor(calls[0], model, req.numSamples, samplesInit, numGnpeIterations)
    ensures run.result.Ok? && modelInit.Some? ==>
              var calls := SamplerCalls(run.effects);
              && |calls| == 2
              && IsSamplerCallFor(calls[0], modelInit.value, req.numSamples, None, DefaultGnpeIterations)
              && var inner := SamplePosteriorOfEvent(env, req, modelInit.value, None, None, DefaultGnpeIterations, files);
              && inner.result.Ok?
              && IsSamplerCallFor(calls[1], model, req.numSamples, Some(inner.result.value), numGnpeIterations)
    // without `model_init`, the outcome is that of the single-model run
    ensures modelInit.None? ==> run == SampleWithModel(env, req, model, samplesInit, numGnpeIterations, files)
    // with it, an exception of the nested call propagates unchanged, and
    // otherwise the outcome is the main model's run on its samples
    ensures modelInit.Some? ==>
              var inner := SamplePosteriorOfEvent(env, req, modelInit.value, None, None, DefaultGnpeIterations, files);
              && (inner.result.Err? ==> run == inner)
              && (inner.result.Ok? ==>
                    var outer := SampleWithModel(env, req, model, Some(inner.result.value), numGnpeIterations, inner.files);
                    run == SamplingRun(outer.result, outer.files, inner.effects + outer.effects))
  {
    if modelInit.Some? then
      var inner := SamplePosteriorOfEvent(env, req, modelInit.value, None, None, DefaultGnpeIterations, files);
      if inner.result.Err? then
        inner
      else
        var init := inner.result.value;
        var outer := SampleWithModel(env, req, model, Some(init), numGnpeIterations, inner.files);
        CountsDistribute(inner.effects, outer.effects);
        var calls := SamplerCalls(inner.effects + outer.effects);
        assert outer.result.Ok? ==>
                 && |calls| == 2
                 && calls[0] == SamplerCalls(inner.effects)[0]
                 && calls[1] == SamplerCalls(outer.effects)[0]
                 && IsSamplerCallFor(calls[1], model, req.numSamples, Some(init), numGnpeIterations);
        SamplingRun(outer.result, outer.files, inner.effects + outer.effects)
    else
      SampleWithModel(env, req, model, samplesInit, numGnpeIterations, files)
  }

  /** A successful single-model run loaded its raw data with the derived
      settings, and made no further call than that load and one sampler call. */
  lemma SuccessfulRunLoaded(env: Env, req: Request, model: Model, samplesInit: Option<Samples>,
                            numGnpeIterations: nat, files: Files<RawData>)
    requires SampleWithModel(env, req, model, samplesInit, numGnpeIterations, files).result.Ok?
    ensures var run := SampleWithModel(env, req, model, samplesInit, numGnpeIterations, files);
            var settingsRaw := ParseSettingsForRawData(model.metadata, req.timePsd, req.timeBuffer);
            && settingsRaw.Ok?
            && var load := LoadRawData(env, req.time, settingsRaw.value, req.fileName, files);
            && load.result.Ok?
            && run.files == load.files
            && run.effects == load.effects + SamplerCalls(run.effects)
  {
  }

  /** A successful file-backed run without `model_init` leaves the event in
      the file, under its key, with the derived raw-data settings recorded. */
  lemma SuccessfulRunStoresEvent(env: Env, req: Request, model: Model, samplesInit: Option<Samples>,
                                 numGnpeIterations: nat, files: Files<RawData>)
    requires req.fileName.Some?
    requires SamplePosteriorOfEvent(env, req, model, None, samplesInit, numGnpeIterations, files).result.Ok?
    ensures var run := SamplePosteriorOfEvent(env, req, model, None, samplesInit, numGnpeIterations, files);
            && ParseSettingsForRawData(model.metadata, req.timePsd, req.timeBuffer).Ok?
            && Stored(run.files, req.fileName.value, env.eventKey(req.time))
            && run.files[req.fileName.value].settings
               == Some(ParseSettingsForRawData(model.metadata, req.timePsd, req.timeBuffer).value)
  {
    SuccessfulRunLoaded(env, req, model, samplesInit, numGnpeIterations, files);
    var settingsRaw := ParseSettingsForRawData(model.metadata, req.timePsd, req.timeBuffer).value;
    SuccessfulLoadIsStored(env, req.time, settingsRaw, req.fileName.value, files);
  }

  /** An initial model and a main model that derive the same NaN-free
      raw-data settings share the cached event: with a file name, a
      successful run downloads at most once. */
  lemma InitAndMainShareOneDownload(env: Env, req: Request, model: Model, initModel: Model,
                                    numGnpeIterations: nat, files: Files<RawData>)
    requires req.fileName.Some?
    requires ParseSettingsForRawData(initModel.metadata, req.timePsd, req.timeBuffer).Ok?
    requires ParseSettingsForRawData(initModel.metadata, req.timePsd, req.timeBuffer)
             == ParseSettingsForRawData(model.metadata, req.timePsd, req.timeBuffer)
    requires SettingsNoNaN(ParseSettingsForRawData(model.metadata, req.timePsd, req.timeBuffer).value)
    requires SamplePosteriorOfEvent(env, req, model, Some(initModel), None, numGnpeIterations, files).result.Ok?
    ensures Downloads(SamplePosteriorOfEvent(env, req, model, Some(initModel), None, numGnpeIterations, files).effects) <= 1
  {
    var settingsRaw := ParseSettingsForRawData(model.metadata, req.timePsd, req.timeBuffer).value;
    var run := SamplePosteriorOfEvent(env, req, model, Some(initModel), None, numGnpeIterations, files);
    var inner := SampleWithModel(env, req, initModel, None, DefaultGnpeIterations, files);
    assert inner == SamplePosteriorOfEvent(env, req, initModel, None, None, DefaultGnpeIterations, files);
    var outer := SampleWithModel(env, req, model, Some(inner.result.value), numGnpeIterations, inner.files);
    assert run.effects == inner.effects + outer.effects;
    CountsDistribute(inner.effects, outer.effects);

    SuccessfulRunLoaded(env, req, initModel, None, DefaultGnpeIterations, files);
    var load1 := LoadRawData(env, req.time, settingsRaw, req.fileName, files);
    CountsDistribute(load1.effects, SamplerCalls(inner.effects));
    SamplerCallsDownloadNothing(inner.effects);
    assert Downloads(inner.effects) <= 1;

    SuccessfulRunLoaded(env, req, model, Some(inner.result.value), numGnpeIterations, inner.files);
    RepeatedLoadHits(env, req.time, settingsRaw, req.fileName.value, files);
    assert LoadRawData(env, req.time, settingsRaw, req.fileName, inner.files).effects == [];
    assert outer.effects == [] + SamplerCalls(outer.effects);
    SamplerCallsDownloadNothing(outer.effects);
  }

  lemma {:induction false} SamplerCallsDownloadNothing(trace: seq<Effect>)
    ensures Downloads(SamplerCalls(trace)) == 0
  {
    if trace != [] {
      var head := if trace[0].SampledNpe? || trace[0].SampledGnpe? then [trace[0]] else [];
      SamplerCallsDownloadNothing(trace[1..]);
      CountsDistribute(head, SamplerCalls(trace[1..]));
    }
  }

  /** An initial model whose derived raw-data settings differ from the main
      model's poisons the file for the main model: once the nested call has
      stored the event, the main call raises ValueError and never samples. */
  lemma InitSettingsMismatchFails(env: Env, req: Request, model: Model, initModel: Model,
                                  numGnpeIterations: nat, files: Files<RawData>)
    requires req.fileName.Some?
    requires UsesGnpe(model.metadata).Ok?
    requires ParseSettingsForRawData(initModel.metadata, req.timePsd, req.timeBuffer).Ok?
    requires ParseSettingsForRawData(model.metadata, req.timePsd, req.timeBuffer).Ok?
    requires !DictsEqual(ParseSettingsForRawData(model.metadata, req.timePsd, req.timeBuffer).value,
                         ParseSettingsForRawData(initModel.metadata, req.timePsd, req.timeBuffer).value)
    requires SampleWithModel(env, req, initModel, None, DefaultGnpeIterations, files).result.Ok?
    ensures var run := SamplePosteriorOfEvent(env, req, model, Some(initModel), None, numGnpeIterations, files);
            && run.result.Err? && run.result.error.ValueError?
            && |SamplerCalls(run.effects)| == 1
  {
    var initSettings := ParseSettingsForRawData(initModel.metadata, req.timePsd, req.timeBuffer).value;
    var inner := SampleWithModel(env, req, initModel, None, DefaultGnpeIterations, files);
    SuccessfulRunLoaded(env, req, initModel, None, DefaultGnpeIterations, files);
    SuccessfulLoadIsStored(env, req.time, initSettings, req.fileName.value, files);
    var outer := SampleWithModel(env, req, model, Some(inner.result.value), numGnpeIterations, inner.files);
    CountsDistribute(inner.effects, outer.effects);
  }
}

=== FILE: values.dfy ===
/** The nested Python values that settings, metadata and configuration
    dictionaries are built from.

    A value is either a dict from string keys to values, or a leaf: a
    non-dict Python object, described by its runtime type and the cells
    that `==` compares elementwise (one cell for a scalar or a string,
    one per element for a list, tuple or array).
 */
module Values {
  import opened Wrappers

  /** One element that numpy's elementwise `==` compares. `Num` stands for
      every finite int, bool and float value (Python compares `1 == 1.0`
      and `True == 1` as equal inside a container); NaN is kept apart
      because it is unequal to everything, itself included. Infinities
      have no cell of their own. */
  datatype Scalar = Num(x: real) | NaN | Text(s: string) | Null

  /** The runtime type of a non-dict value, as `type(v)` reports it. */
  datatype LeafType = Int | Float | Str | Bool | NoneType | List | Tuple | NdArray

  /** `type(v)`: dict, or one of the leaf types. */
  datatype PyType = DictType | LeafOf(leaf: LeafType)

  /** A nested value. The type admits encodings no Python object has (a
      `Str` leaf with two cells, an `Int` leaf holding text); nothing in the
      model depends on excluding them, since equality and lookup treat such
      leaves like any other. */
  datatype Value =
    | Dict(entries: map<string, Value>)
    | Leaf(ty: LeafType, cells: seq<Scalar>)

  /** A settings dictionary. */
  type Settings = map<string, Value>

  function TypeOf(v: Value): (t: PyType)
    ensures t == DictType <==> v.Dict?
  {
    match v
    case Dict(_) => DictType
    case Leaf(ty, _) => LeafOf(ty)
  }

  /** A Python `str`. */
  function StrValue(s: string): Value {
    Leaf(Str, [Text(s)])
  }

  /** A Python `int`. */
  function IntValue(n: int): Value {
    Leaf(Int, [Num(n as real)])
  }

  /** `v[key]` with a string key: a dict lookup that raises KeyError for a
      missing key, IndexError on a numpy array (which accepts only integer
      and slice indices), and TypeError on any other value. */
  function Index(v: Value, key: string): (r: Result<Value>)
    ensures r.Ok? <==> v.Dict? && key in v.entries
    ensures r.Ok? ==> r.value == v.entries[key]
    ensures v.Dict? && key !in v.entries ==> r == Err(KeyError(key))
    ensures v.Leaf? ==> r.Err? && (r.error.IndexError? <==> v.ty == NdArray) && (r.error.TypeError? <==> v.ty != NdArray)
  {
    match v
    case Dict(m) => if key in m then Ok(m[key]) else Err(KeyError(key))
    case Leaf(ty, _) =>
      if ty == NdArray then Err(IndexError("only integers and slices are valid array indices"))
      else Err(TypeError("indexing a non-dict value"))
  }

  /** `needle` occurs as a contiguous piece of `hay`. */
  predicate Occurs(needle: string, hay: string)
    decreases |hay|
  {
    needle <= hay || (|hay| > 0 && Occurs(needle, hay[1..]))
  }

  /** Python's `needle in v` for a string `needle`: key membership for a
      dict, substring search for a string, element search for a list,
      tuple or array, and TypeError for a scalar that is not iterable. */
  function Contains(v: Value, needle: string): (r: Result<bool>)
    ensures v.Dict? ==> r == Ok(needle in v.entries)
    ensures r.Err? <==> v.Leaf? && v.ty in {Int, Float, Bool, NoneType}
  {
    match v
    case Dict(m) => Ok(needle in m)
    case Leaf(ty, cells) =>
      match ty
      case Str => Ok(exists i :: 0 <= i < |cells| && cells[i].Text? && Occurs(needle, cells[i].s))
      case List => Ok(Text(needle) in cells)
      case Tuple => Ok(Text(needle) in cells)
      case NdArray => Ok(Text(needle) in cells)
      case _ => Err(TypeError("argument is not iterable"))
  }

  /** ASCII lower-casing of one character. */
  function LowerChar(c: char): char {
    if 'A' <= c <= 'Z' then (c as int + 32) as char else c
  }

  /** `s.lower()`, restricted to ASCII letters. */
  function Lower(s: string): (r: string)
    ensures |r| == |s|
    ensures forall i :: 0 <= i < |s| ==> r[i] == LowerChar(s[i])
  {
    if s == [] then [] else [LowerChar(s[0])] + Lower(s[1..])
  }
}

=== FILE: wrappers.dfy ===
/** Option, Result and the exceptions the modelled Python code raises.

    Python exceptions become `Err` values; each constructor names the
    exception class the source raises and what it carries.
 */
module Wrappers {

  datatype Option<+T> = None | Some(value: T)

  /** The exceptions raised along the modelled paths. */
  datatype Error =
    | KeyError(key: string)              // a missing dict key or dataframe column
    | TypeError(what: string)            // indexing, `in` or `**` on a value that is not a dict
    | IndexError(what: string)           // a numpy array indexed by a string
    | AttributeError(what: string)       // a method called on None
    | ValueError(what: string)           // settings that do not match the stored ones
    | NotImplementedError(what: string)  // an unknown domain type
    | ParseFailed(text: string)          // a settings string that cannot be turned into a dict

  /** The result of a call that either returns a value or raises. */
  datatype Result<+T> = Ok(value: T) | Err(error: Error) {
    predicate IsFailure() {
      Err?
    }

    function PropagateFailure<U>(): Result<U>
      requires Err?
    {
      Err(error)
    }

    function Extract(): T
      requires Ok?
    {
      value
    }
  }
}
